=== FILE: README.md ===
# Ambient interaction core of the portfolio page, in Dafny

This project models the three pieces of runtime logic in the portfolio page
and proves properties of them:

- **The doodle background** (`InteractiveDoodleBackground`). A string transform
  annotates a vector-graphic document. The first `<svg` gets a
  `preserveAspectRatio="xMidYMid slice"` directive. Every match of
  `<(path|g|circle|rect|ellipse)` gets ` class="interactive-doodle" id="doodle-N"`,
  with N counting matches from 1, left to right. A position map from element
  id to bounding-box centre is rebuilt from scratch. On each pointer move,
  every registered doodle is flagged active iff it lies closer than 100 units
  to the pointer, unless the portfolio overlay is open: then every doodle is
  made inactive.
- **The advanced typewriter** (`useAdvancedTypingEffect`). The option defaults
  are filled in, and the jittered keystroke delay is computed. The state
  machine has keystroke, completion, cursor-blink and text-change events, and
  exposes a cursor signal.
- **The hero typewriter** (`useTypingEffect` in `Hero`). It empties the text,
  then schedules one timeout per character. Cleanup cancels them all. The
  file also holds the explore-button toggle and its label.

Modules:

- `Wrappers`: the `Option` type.
- `Decimal`: decimal numerals for the id counter.
- `Timers`: how long a browser timer waits for a requested delay.
- `SvgAnnotator`: the markup transform.
- `DoodleReactor`: the position map and the proximity reaction.
- `AdvancedTyping`: the advanced typewriter.
- `HeroTyping`: the hero typewriter, the toggle and the label.

Timers, listeners and the DOM are not modelled. Each timer callback or
browser event is an explicit step function. The one piece of timer
behaviour the model keeps is the conversion of a requested delay into the
milliseconds waited. Under the Web IDL conversion of a `long` argument, the delay
is truncated toward zero and wrapped modulo 2^32 into the signed 32-bit
range, and a negative result waits zero. Element boxes and active flags
are plain data. The random sample and the pointer position are parameters.

## Model

| member | source | states |
|---|---|---|
| `SvgAnnotator.ProcessedSvg` | src/components/InteractiveDoodleBackground.tsx:12-27 | The result is empty exactly when the input is empty. The transform never shortens the document. |
| `SvgAnnotator.MatchTag` | src/components/InteractiveDoodleBackground.tsx:21 | A match is one of the five alternatives and a case-sensitive prefix of the text. No match means no alternative is a prefix, so `<g` also matches `<glyph` and `<text` never matches. |
| `SvgAnnotator.FitRoot` | src/components/InteractiveDoodleBackground.tsx:16-19 | A document without `<svg` is unchanged. Otherwise exactly the directive's length is added. |
| `SvgAnnotator.FitRootFirstOnly` | src/components/InteractiveDoodleBackground.tsx:16-19 | Only the first `<svg` gains the directive. It stays the first `<svg` of the result and the directive follows it. Text before and after the insertion point is unchanged, so later `<svg` occurrences are untouched. |
| `SvgAnnotator.FitRootRoundTrip` | src/components/InteractiveDoodleBackground.tsx:16-19 | Removing the directive behind the first `<svg` gives back the original document. |
| `SvgAnnotator.FitRootKeepsCount` | src/components/InteractiveDoodleBackground.tsx:16-21 | Inserting the directive adds no shape-pattern occurrence and hides none. So the counter counts the occurrences of the original input. |
| `SvgAnnotator.AnnotateFrom` | src/components/InteractiveDoodleBackground.tsx:20-25 | The global replacement only lengthens its input. It assigns at most one id per input character. |
| `SvgAnnotator.AnnotateIds` | src/components/InteractiveDoodleBackground.tsx:20-25 | The ids are `doodle-(c+1)`, `doodle-(c+2)`, and so on. There is one id per position where the shape pattern occurs. The position count is an independent definition that does not use the left-to-right scan. |
| `SvgAnnotator.AssignedIdsNumbered` | src/components/InteractiveDoodleBackground.tsx:20-25 | The ids of a document are `doodle-1` … `doodle-k`, in order. k is the number of pattern occurrences in the input. The ids are pairwise distinct. |
| `SvgAnnotator.UnannotateRoundTrip` | src/components/InteractiveDoodleBackground.tsx:22-25 | The replacement only inserts text. Deleting every marker that follows a shape tag recovers the input, and the deleted markers carry exactly the assigned ids. |
| `SvgAnnotator.ProcessedSvgRoundTrip` | src/components/InteractiveDoodleBackground.tsx:14-25 | The whole transform is an insertion. For a non-empty input, deleting the markers leaves exactly the input with the fit directive behind its first `<svg` (placed there as `FitRootFirstOnly` states). Deleting the directive too recovers the input exactly. The ids read back from the output are the assigned ids. |
| `SvgAnnotator.DoodleIdInjective` | src/components/InteractiveDoodleBackground.tsx:24 | Different counter values give different element ids. |
| `Decimal.ShowNat` | src/components/InteractiveDoodleBackground.tsx:24 | The counter is rendered as a non-empty string of digits, with no leading zero for a positive counter. |
| `Decimal.ReadShowNat` | src/components/InteractiveDoodleBackground.tsx:24 | Reading the rendered counter back gives the counter. |
| `Decimal.ShowNatInjective` | src/components/InteractiveDoodleBackground.tsx:24 | Distinct counters render as distinct numerals. |
| `DoodleReactor.Centre` | src/components/InteractiveDoodleBackground.tsx:40-41 | The reference point lies midway between the left and right edges of the box, and midway between its top and bottom edges. |
| `DoodleReactor.CalculatePositions` | src/components/InteractiveDoodleBackground.tsx:33-44 | The rebuilt map's keys are exactly the ids of the current elements. Nothing from the previous map survives. Each id maps to the centre of the last element in document order that carries it. |
| `DoodleReactor.HandleMouseMove` | src/components/InteractiveDoodleBackground.tsx:53-77 | Every registered doodle gets its flag set. When not suppressed, the flag is active iff the doodle is near the pointer. When suppressed, every registered doodle is inactive wherever the pointer is. Flags of unregistered elements are untouched. |
| `DoodleReactor.NearIsDistanceBelowThreshold` | src/components/InteractiveDoodleBackground.tsx:64-71 | The squared-distance test agrees with "Euclidean distance < 100". |
| `DoodleReactor.MouseMoveIdempotent` | src/components/InteractiveDoodleBackground.tsx:66-76 | Repeating a move changes nothing. The flags of registered doodles do not depend on their previous values, so the reaction corrects missed events. |
| `DoodleReactor.ProximityExamples` | src/components/InteractiveDoodleBackground.tsx:63-76 | With the pointer at (10,10), centres (0,0) and (50,50) are active and (500,500) is not. Distances 99.9 and 100.1 fall on either side of the threshold. |
| `AdvancedTyping.Resolve` | src/hooks/useAdvancedTypingEffect.tsx:17-23 | Unspecified options default to typeSpeed 80, naturalVariation on, cursorBlinkSpeed 530, pauseOnComplete 1000 and startDelay 200. Each option that is given keeps its given value, field by field, whatever the other fields hold. |
| `AdvancedTyping.ResolveNoOptions` | src/hooks/useAdvancedTypingEffect.tsx:14-23 | A call without a configuration object gets typeSpeed 80, naturalVariation on, cursorBlinkSpeed 530, pauseOnComplete 1000 and startDelay 200. |
| `AdvancedTyping.ResolveSpecified` | src/hooks/useAdvancedTypingEffect.tsx:17-23 | Options given explicitly are kept as given. |
| `AdvancedTyping.Variation` | src/hooks/useAdvancedTypingEffect.tsx:35 | A uniform sample in [0,1) gives a relative jitter in [-0.3, 0.3). |
| `AdvancedTyping.Jittered` | src/hooks/useAdvancedTypingEffect.tsx:36 | A non-negative base speed moved by the jitter stays within 70% to 130% of itself. A negative base speed stays non-positive. |
| `AdvancedTyping.TypingDelay` | src/hooks/useAdvancedTypingEffect.tsx:31-37 | Without variation the delay is the base speed. With variation it is at least 30 and at most max(30, 1.3·speed), for any base speed. For a non-negative base speed it is also at least max(30, 0.7·speed). |
| `AdvancedTyping.TickDelay` | src/hooks/useAdvancedTypingEffect.tsx:57 | The first character waits the start delay. Every later character waits the keystroke delay: the base speed without variation, at least 30 with it. |
| `AdvancedTyping.Tick` | src/hooks/useAdvancedTypingEffect.tsx:51-56 | A keystroke fires only while characters remain. It advances the index by one, shows the prefix of that length, and changes nothing else. Without a pending keystroke, nothing changes. |
| `AdvancedTyping.Complete` | src/hooks/useAdvancedTypingEffect.tsx:64-71 | Completion is flagged only from a state where every character is shown. It is always flagged when pending. When it is not pending, nothing changes, so completion is never revoked. Nothing but the flag ever changes. |
| `AdvancedTyping.Blink` | src/hooks/useAdvancedTypingEffect.tsx:41-43 | A blink negates the raw cursor phase and changes nothing else. |
| `AdvancedTyping.CursorVisible` | src/hooks/useAdvancedTypingEffect.tsx:84 | The exposed cursor is always visible before completion. After completion it follows the blink phase. |
| `AdvancedTyping.StepValid` | src/hooks/useAdvancedTypingEffect.tsx:49-79 | Every event preserves `displayText == text[..currentIndex]`, `currentIndex <= |text|`, and "complete implies fully shown". A text change resets to the empty display, index 0, not complete, with the cursor on. Completion is reached only by the completion timer from a fully revealed state. Apart from a text change, the index never decreases and a completed state stays complete. |
| `AdvancedTyping.RunValid` | src/hooks/useAdvancedTypingEffect.tsx:49-79 | Any sequence of events keeps the invariant. In particular, once complete, the display is the whole target text. |
| `AdvancedTyping.HiScenario` | src/hooks/useAdvancedTypingEffect.tsx:51-71 | For "Hi" the display goes "" → "H" → "Hi". Completion comes only with the completion timer afterwards. |
| `AdvancedTyping.KeystrokeWait` | src/hooks/useAdvancedTypingEffect.tsx:31-57 | With variation and a base speed of at most 10^9 ms, a keystroke timer waits at least 30 ms and at most max(30, 1.3·speed) ms. |
| `AdvancedTyping.TypeKeystrokes` | src/hooks/useAdvancedTypingEffect.tsx:49-60 | Firing every keystroke timer from the initial state reveals the whole text, not yet complete and with the cursor on. The milliseconds taken are wait(startDelay) plus n−1 keystroke waits. Each keystroke wait is wait(typeSpeed) without variation, and between 30 and max(30, 1.3·speed) with it. |
| `AdvancedTyping.TypingTotal` | src/hooks/useAdvancedTypingEffect.tsx:54-67 | Adding the completion hold to the keystrokes gives wait(startDelay) + (n−1)·wait(typeSpeed) + wait(pauseOnComplete) without variation. For whole-millisecond settings below 2^31, that is startDelay + (n−1)·typeSpeed + pauseOnComplete exactly. With variation the total lies between wait(startDelay) + (n−1)·30 + wait(pauseOnComplete) and wait(startDelay) + wait(pauseOnComplete) + (n−1)·max(30, 1.3·typeSpeed). |
| `AdvancedTyping.TypeOut` | src/hooks/useAdvancedTypingEffect.tsx:49-71 | Typing the whole text ends complete, with the full text displayed. Each timer waits its request converted to a 32-bit long, in whole milliseconds. So a jittered 90.4 ms waits 90 ms, and a negative request waits 0 ms. Without variation and with non-empty text, the time taken is wait(startDelay) + (n−1)·wait(typeSpeed) + wait(pauseOnComplete). When all three settings are whole milliseconds below 2^31, that is startDelay + (n−1)·typeSpeed + pauseOnComplete. With variation and a base speed of at most 10^9 ms, the time is between wait(startDelay) + (n−1)·30 + wait(pauseOnComplete) and wait(startDelay) + wait(pauseOnComplete) + (n−1)·max(30, 1.3·typeSpeed). For empty text it is wait(pauseOnComplete). |
| `Timers.Truncate` | src/components/Hero.tsx:13-15 | A delay converts to its integer part, rounding toward zero: the floor for a non-negative delay, and the least integer not below it for a negative one (−2.5 becomes −2). |
| `Timers.WrapLong` | src/components/Hero.tsx:13-15 | An integer wraps into the signed 32-bit range and stays congruent to itself modulo 2^32. An integer already in range is unchanged. |
| `Timers.TimerWait` | src/components/Hero.tsx:13-15 | A timer waits fewer than 2^31 whole milliseconds. A request in [0, 2^31) waits its floor: at most the request and less than one below it. A whole-millisecond request waits exactly itself. A request in (−2^31, 0] waits zero. |
| `Timers.TimerWaitMonotone` | src/components/Hero.tsx:13-15 | Within (−2^31, 2^31), a longer request never waits less. |
| `Timers.LongRequestWraps` | src/components/Hero.tsx:13-15 | Requests of 2^31 ms or more wrap: 2.5·10^9 ms waits 0 ms, and 2^32 + 100 ms waits 100 ms. |
| `HeroTyping.Schedule` | src/components/Hero.tsx:12-16 | There is one timeout per character. Timeout i appends character i of the target and is requested after d·(i+1). |
| `HeroTyping.ScheduleInOrder` | src/components/Hero.tsx:12-16 | While the last request d·n stays strictly inside (−2^31, 2^31) ms, the timeouts fall due in creation order: each waits no longer than the next. Ties go in creation order, so firing the head of the list first is the timer queue's order. With a positive interval, each request is strictly later than the one before. |
| `HeroTyping.ScheduledPair` | src/components/Hero.tsx:12-16 | For any two characters i < j of one schedule, the same order facts hold pairwise. |
| `HeroTyping.HugeIntervalReorders` | src/components/Hero.tsx:12-16 | Past the 32-bit range the order breaks. With 5·10^8 ms per character of "Samuel", the fifth timeout waits 0 ms while the first waits 5·10^8 ms. |
| `HeroTyping.Start` | src/components/Hero.tsx:8-16 | On (re)start the text is empty, and the pending timeouts are exactly the schedule for the target: one per character, timeout i appending character i after d·(i+1). |
| `HeroTyping.Fire` | src/components/Hero.tsx:13-15 | A firing timeout appends its own character to the text so far and leaves the later timeouts pending. With nothing pending, nothing changes. |
| `HeroTyping.FireNAppends` | src/components/Hero.tsx:12-16 | Firing k timeouts appends their characters in order and leaves the rest pending. |
| `HeroTyping.TypedPrefix` | src/components/Hero.tsx:12-16 | After the first k timeouts fire, the text is the length-k prefix of the target. After all of them fire, it is the target. |
| `HeroTyping.Cancel` | src/components/Hero.tsx:19-21 | Cleanup leaves no timeout pending and keeps the text. |
| `HeroTyping.NothingAfterCancel` | src/components/Hero.tsx:19-21 | After cleanup, no number of further firings changes anything. |
| `HeroTyping.ClickExplore` | src/components/Hero.tsx:30-32 | A click flips whether the details are shown. |
| `HeroTyping.ClickTwice` | src/components/Hero.tsx:30-32 | Two clicks restore the original state. |
| `HeroTyping.ButtonLabel` | src/components/Hero.tsx:86 | The label is "Hide Details" iff the details are shown, and "Explore" iff they are not. |

## Behaviour the code does not have

The model covers what the code does, and nothing beyond it:

- `text` elements are never annotated, because the shape pattern has no `text` alternative. The match is a case-sensitive prefix, so `<g` also annotates `<glyph…`.
- No coordinate frame (`viewBox`) is added to a document that lacks one. The only change to the root is the fit directive.
- Positions come only from measured bounding boxes. There is no procedural placement around the viewport edges.
- Opening the portfolio does not clear active flags at once. They are cleared by the next pointer move (`HandleMouseMove` with `suppressed`). Changing the flag only re-registers the move listener.
- The transform is deterministic: the same input always gives the same output and ids. It is not idempotent: annotating its own output again adds markers a second time.
- The simple typewriter waits the interval before the first character too (`d·(i+1)` with i = 0). It has no separate start delay.

## Left out

- `src/hooks/useWindowWidth.tsx` is not part of this model. It is a thin wrapper over the browser resize event and holds no logic.
- DOM access is not modelled. `querySelectorAll`, `getBoundingClientRect`, `classList` and `dangerouslySetInnerHTML` become plain data: a list of `Element`s with ids and boxes, and a map of active flags.
- Active flags are kept per id, not per element. This equals per-element flags when ids are distinct, as `AssignedIdsNumbered` shows for annotated shapes. If two `.interactive-doodle` elements share an id, the code toggles only the last one registered under that id and leaves the earlier one alone. The model cannot represent that case.
- The early exit when the container element is missing is not modelled. On that path the code does not clear the old position map. `CalculatePositions` models only a present container.
- Listener registration and removal are not modelled, nor is re-running the position calculation on resize. Each recalculation is one call of `CalculatePositions`.
- Real-time scheduling (`setTimeout`, `setInterval`) and React effect ordering are not modelled. Each callback is an explicit event. `TypeOut` adds up the waits of the timers it fires.
- Timers.TimerWait: NaN and infinite requests, which the 32-bit conversion turns into 0, are not modelled, because the model's numbers are exact reals. The 4 ms floor on deeply nested timers is not modelled, and neither is throttling in background tabs.
- HeroTyping.ScheduleInOrder: the creation-order guarantee holds only while d·n stays inside (−2^31, 2^31) ms. `Fire` and `TypedPrefix` always fire the head of the pending list. Beyond that range the browser fires in a different order (`HugeIntervalReorders`), and the model does not follow it.
- AdvancedTyping.TypeOut: with variation, the time is bounded only for base speeds up to 10^9 ms. For larger speeds a jittered request can pass 2^31 ms and wrap, and no bound is stated.
- The transient render in which a stale index meets a new text is not modelled. A text change is one atomic reset.
- `Math.random` is a sample parameter in [0, 1).
- JavaScript numbers are floating point; the model uses exact reals. `Math.sqrt` and `Math.pow` are replaced by the squared-distance test. `NearIsDistanceBelowThreshold` shows that this test agrees with the distance comparison.
- Determinism of the transform is not stated as a lemma. Every Dafny function returns one result per input, so equal inputs always give equal output and ids.
- Strings are sequences of characters. JavaScript's UTF-16 code units are not modelled separately, so `split('')` on surrogate pairs is not distinguished.
- The blink interval's period (`cursorBlinkSpeed`) is resolved but not timed. `TypeOut` fires no blink events, because a blink changes only the cursor phase (`Blink`).
- JSX markup, styling, links and static copy are not modelled.

=== FILE: advanced_typing.dfy ===
/** The typewriter hook with start delay, jittered keystrokes, a hold before
    completion and a blinking cursor, as a state machine driven by explicit
    timer events. */
module AdvancedTyping {
  import opened Wrappers
  import opened Timers

  /** Options as a caller passes them; an absent option takes its default. */
  datatype TypewriterConfig = TypewriterConfig(
    typeSpeed: Option<real>,
    naturalVariation: Option<bool>,
    cursorBlinkSpeed: Option<real>,
    pauseOnComplete: Option<real>,
    startDelay: Option<real>)

  /** Options after defaulting. */
  datatype Settings = Settings(
    typeSpeed: real,
    naturalVariation: bool,
    cursorBlinkSpeed: real,
    pauseOnComplete: real,
    startDelay: real)

  const NoOptions: TypewriterConfig := TypewriterConfig(None, None, None, None, None)

  /** Fills every absent option with its default; a given option is kept. */
  function Resolve(c: TypewriterConfig): (s: Settings)
    ensures c.typeSpeed.None? ==> s.typeSpeed == 80.0
    ensures c.naturalVariation.None? ==> s.naturalVariation
    ensures c.cursorBlinkSpeed.None? ==> s.cursorBlinkSpeed == 530.0
    ensures c.pauseOnComplete.None? ==> s.pauseOnComplete == 1000.0
    ensures c.startDelay.None? ==> s.startDelay == 200.0
    ensures c.typeSpeed.Some? ==> s.typeSpeed == c.typeSpeed.value
    ensures c.naturalVariation.Some? ==> s.naturalVariation == c.naturalVariation.value
    ensures c.cursorBlinkSpeed.Some? ==> s.cursorBlinkSpeed == c.cursorBlinkSpeed.value
    ensures c.pauseOnComplete.Some? ==> s.pauseOnComplete == c.pauseOnComplete.value
    ensures c.startDelay.Some? ==> s.startDelay == c.startDelay.value
  {
    Settings(
      c.typeSpeed.GetOr(80.0),
      c.naturalVariation.GetOr(true),
      c.cursorBlinkSpeed.GetOr(530.0),
      c.pauseOnComplete.GetOr(1000.0),
      c.startDelay.GetOr(200.0))
  }

  /** The configuration that states every option explicitly. */
  function Specify(s: Settings): TypewriterConfig {
    TypewriterConfig(Some(s.typeSpeed), Some(s.naturalVariation), Some(s.cursorBlinkSpeed),
                     Some(s.pauseOnComplete), Some(s.startDelay))
  }

  /** Explicitly given options are taken as they are. */
  lemma ResolveSpecified(s: Settings)
    ensures Resolve(Specify(s)) == s
  {
  }

  /** Calling the hook without a configuration object takes every default. */
  lemma ResolveNoOptions()
    ensures Resolve(NoOptions) == Settings(80.0, true, 530.0, 1000.0, 200.0)
  {
  }

  const MinimumDelay: real := 30.0

  function Max(a: real, b: real): (m: real)
    ensures a <= m && b <= m
    ensures m == a || m == b
  {
    if a < b then b else a
  }

  /** The relative jitter drawn from a uniform sample in [0, 1). */
  function Variation(random: real): (v: real)
    requires 0.0 <= random < 1.0
    ensures -0.3 <= v < 0.3
  {
    (random - 0.5) * 0.6
  }

  /** Delay before a keystroke after the first. Without variation it is the
      base speed; with variation the base speed is moved by up to 30% either
      way and never drops below 30. */
  function TypingDelay(s: Settings, random: real): (d: real)
    requires 0.0 <= random < 1.0
    ensures !s.naturalVariation ==> d == s.typeSpeed
    ensures s.naturalVariation ==> MinimumDelay <= d
    ensures s.naturalVariation ==> d <= Max(MinimumDelay, s.typeSpeed * 1.3)
    ensures s.naturalVariation && 0.0 <= s.typeSpeed ==>
              Max(MinimumDelay, s.typeSpeed * 0.7) <= d <= Max(MinimumDelay, s.typeSpeed * 1.3)
  {
    if !s.naturalVariation then s.typeSpeed
    else
      var jittered := Jittered(s.typeSpeed, Variation(random));
      Max(MinimumDelay, jittered)
  }

  /** The base speed moved by the relative jitter v: within 30% of the
      base speed either way. */
  function Jittered(speed: real, v: real): (j: real)
    requires -0.3 <= v < 0.3
    ensures 0.0 <= speed ==> speed * 0.7 <= j <= speed * 1.3
    ensures speed < 0.0 ==> j <= 0.0
  {
    JitterBounds(speed, v);
    speed + speed * v
  }

  lemma JitterBounds(speed: real, v: real)
    requires -0.3 <= v < 0.3
    ensures 0.0 <= speed ==> speed * 0.7 <= speed + speed * v <= speed * 1.3
    ensures speed < 0.0 ==> speed + speed * v <= 0.0
  {
    if 0.0 <= speed {
      assert speed * -0.3 <= speed * v <= speed * 0.3;
    } else {
      assert (-speed) * v <= (-speed) * 0.3;
    }
  }

  // ---------------------------------------------------------------------
  // State machine

  /** The hook's state: revealed text, its length in characters, whether
      the completion hold has elapsed, and the raw cursor phase. */
  datatype Typing = Typing(displayText: string, currentIndex: nat, isComplete: bool, showCursor: bool)

  /** The state on mount and after every change of the target text. */
  const Initial: Typing := Typing("", 0, false, true)

  /** Invariant: the display is the prefix of the target of the revealed
      length, and completion implies the whole target is shown. */
  predicate Valid(text: string, st: Typing) {
    && st.currentIndex <= |text|
    && st.displayText == text[..st.currentIndex]
    && (st.isComplete ==> st.currentIndex == |text|)
  }

  /** A keystroke timer is pending only while characters remain. */
  predicate TickPending(text: string, st: Typing) {
    st.currentIndex < |text|
  }

  /** The completion timer is pending once every character is shown and
      completion has not yet been flagged. */
  predicate CompletePending(text: string, st: Typing) {
    st.currentIndex >= |text| && !st.isComplete
  }

  /** The delay of the pending keystroke timer: the start delay for the
      first character, a jittered delay for every later one. */
  function TickDelay(s: Settings, st: Typing, random: real): (d: real)
    requires 0.0 <= random < 1.0
    ensures st.currentIndex == 0 ==> d == s.startDelay
    ensures st.currentIndex > 0 && !s.naturalVariation ==> d == s.typeSpeed
    ensures st.currentIndex > 0 && s.naturalVariation ==> MinimumDelay <= d
  {
    if st.currentIndex == 0 then s.startDelay else TypingDelay(s, random)
  }

  /** A keystroke: reveals one more character. Without a pending timer
      nothing happens. */
  function Tick(text: string, st: Typing): (r: Typing)
    ensures !TickPending(text, st) ==> r == st
    ensures TickPending(text, st) ==>
              && r.currentIndex == st.currentIndex + 1
              && r.displayText == text[..r.currentIndex]
              && r.(displayText := st.displayText, currentIndex := st.currentIndex) == st
  {
    if st.currentIndex < |text|
    then st.(displayText := text[..st.currentIndex + 1], currentIndex := st.currentIndex + 1)
    else st
  }

  /** The completion timer firing after the hold. */
  function Complete(text: string, st: Typing): (r: Typing)
    ensures r.isComplete ==> st.isComplete || st.currentIndex >= |text|
    ensures CompletePending(text, st) ==> r.isComplete
    ensures r.(isComplete := st.isComplete) == st
    ensures !CompletePending(text, st) ==> r == st
  {
    if CompletePending(text, st) then st.(isComplete := true) else st
  }

  /** The cursor interval: flips the raw cursor phase and nothing else. */
  function Blink(st: Typing): (r: Typing)
    ensures r.showCursor != st.showCursor
    ensures r.(showCursor := st.showCursor) == st
  {
    st.(showCursor := !st.showCursor)
  }

  /** The cursor signal the hook exposes: solid until completion, then
      following the blink phase. */
  function CursorVisible(st: Typing): (visible: bool)
    ensures !st.isComplete ==> visible
    ensures st.isComplete ==> visible == st.showCursor
  {
    st.showCursor || !st.isComplete
  }

  /** The events that drive the hook. */
  datatype Event = TickFired | CompleteFired | BlinkFired | TextChanged(newText: string)

  /** Target text together with the hook's state. */
  datatype Machine = Machine(text: string, state: Typing)

  function Step(m: Machine, e: Event): Machine {
    match e
    case TickFired => m.(state := Tick(m.text, m.state))
    case CompleteFired => m.(state := Complete(m.text, m.state))
    case BlinkFired => m.(state := Blink(m.state))
    case TextChanged(t) => Machine(t, Initial)
  }

  function Run(m: Machine, events: seq<Event>): Machine
    decreases |events|
  {
    if |events| == 0 then m else Run(Step(m, events[0]), events[1..])
  }

  /** Every event keeps the invariant; a text change resets everything, and
      completion is reached only from a fully revealed state. */
  lemma StepValid(m: Machine, e: Event)
    requires Valid(m.text, m.state)
    ensures Valid(Step(m, e).text, Step(m, e).state)
    ensures e.TextChanged? ==> Step(m, e) == Machine(e.newText, Typing("", 0, false, true))
    ensures !m.state.isComplete && Step(m, e).state.isComplete ==>
              e == CompleteFired && m.state.currentIndex >= |m.text|
    ensures !e.TextChanged? ==> m.state.currentIndex <= Step(m, e).state.currentIndex
    ensures !e.TextChanged? && m.state.isComplete ==> Step(m, e).state.isComplete
  {
  }

  /** Any run from a valid state stays valid; in particular, once complete
      the whole target text is displayed. */
  lemma {:induction false} RunValid(m: Machine, events: seq<Event>)
    requires Valid(m.text, m.state)
    ensures Valid(Run(m, events).text, Run(m, events).state)
    ensures Run(m, events).state.isComplete ==> Run(m, events).state.displayText == Run(m, events).text
    decreases |events|
  {
    if |events| > 0 {
      StepValid(m, events[0]);
      RunValid(Step(m, events[0]), events[1..]);
    }
  }

  /** "Hi" types as "" then "H" then "Hi", and is flagged complete only by
      the completion timer afterwards. */
  lemma HiScenario()
    ensures var m0 := Step(Machine("", Initial), TextChanged("Hi"));
            var m1 := Step(m0, TickFired);
            var m2 := Step(m1, TickFired);
            var m3 := Step(m2, CompleteFired);
            && m0.state.displayText == "" && m1.state.displayText == "H" && m2.state.displayText == "Hi"
            && !m2.state.isComplete && m3.state.isComplete && m3.state.displayText == "Hi"
  {
  }

  /** The largest base speed for which a jittered keystroke (at most 1.3
      times the base) is certain to stay inside the 32-bit timer range. */
  const MaxTypeSpeed: real := 1000000000.0

  /** With variation and a base speed up to MaxTypeSpeed, a keystroke timer
      waits at least the 30 ms floor and at most the upper jitter bound. */
  lemma KeystrokeWait(s: Settings, random: real)
    requires 0.0 <= random < 1.0
    requires s.naturalVariation && s.typeSpeed <= MaxTypeSpeed
    ensures 30 <= TimerWait(TypingDelay(s, random))
    ensures TimerWait(TypingDelay(s, random)) as real <= Max(MinimumDelay, s.typeSpeed * 1.3)
  {
    var d := TypingDelay(s, random);
    assert MinimumDelay <= d <= Max(MinimumDelay, s.typeSpeed * 1.3);
    assert Max(MinimumDelay, s.typeSpeed * 1.3) < TwoTo31 as real;
    assert 30.0 <= d < TwoTo31 as real;
  }

  /** What the time spent on the first k keystrokes is known to be: the
      start delay's wait plus k - 1 keystroke waits, each exactly the base
      speed's wait without variation and between the 30 ms floor and the
      upper jitter bound with it. */
  predicate KeystrokesTook(s: Settings, k: nat, elapsed: nat) {
    && (k == 0 ==> elapsed == 0)
    && (!s.naturalVariation && k > 0 ==>
          elapsed == TimerWait(s.startDelay) + (k - 1) * TimerWait(s.typeSpeed))
    && (s.naturalVariation && k > 0 && s.typeSpeed <= MaxTypeSpeed ==>
          && elapsed >= TimerWait(s.startDelay) + (k - 1) * 30
          && elapsed as real <= TimerWait(s.startDelay) as real
                                + (k - 1) as real * Max(MinimumDelay, s.typeSpeed * 1.3))
  }

  /** One more keystroke whose timer waited w keeps the account. */
  lemma {:induction false} KeystrokeStep(s: Settings, k: nat, elapsed: nat, w: nat)
    requires KeystrokesTook(s, k, elapsed)
    requires k == 0 ==> w == TimerWait(s.startDelay)
    requires k > 0 && !s.naturalVariation ==> w == TimerWait(s.typeSpeed)
    requires k > 0 && s.naturalVariation && s.typeSpeed <= MaxTypeSpeed ==>
               30 <= w && w as real <= Max(MinimumDelay, s.typeSpeed * 1.3)
    ensures KeystrokesTook(s, k + 1, elapsed + w)
  {
    if k > 0 && s.naturalVariation && s.typeSpeed <= MaxTypeSpeed {
      var m := Max(MinimumDelay, s.typeSpeed * 1.3);
      assert (elapsed + w) as real == elapsed as real + w as real;
      assert (k - 1) as real * m + m == k as real * m;
    }
  }

  /** The keystroke timer pending in state st, once fired, keeps the
      account. */
  lemma NextKeystroke(s: Settings, st: Typing, random: real, elapsed: nat)
    requires 0.0 <= random < 1.0
    requires KeystrokesTook(s, st.currentIndex, elapsed)
    ensures KeystrokesTook(s, st.currentIndex + 1, elapsed + TimerWait(TickDelay(s, st, random)))
  {
    if st.currentIndex > 0 && s.naturalVariation && s.typeSpeed <= MaxTypeSpeed {
      KeystrokeWait(s, random);
    }
    KeystrokeStep(s, st.currentIndex, elapsed, TimerWait(TickDelay(s, st, random)));
  }

  /** Types the whole text with no interference from a text change, firing
      each timer when it is due, and returns the final state and the
      milliseconds it took, each timer waiting its request converted to a
      32-bit long. Sample i is the random draw for character i. */
  method TypeOut(s: Settings, text: string, samples: seq<real>) returns (st: Typing, elapsed: nat)
    requires |text| <= |samples|
    requires forall i :: 0 <= i < |samples| ==> 0.0 <= samples[i] < 1.0
    ensures Valid(text, st)
    ensures st.displayText == text && st.isComplete && CursorVisible(st)
    ensures !s.naturalVariation && |text| > 0 ==>
              elapsed == TimerWait(s.startDelay) + (|text| - 1) * TimerWait(s.typeSpeed)
                         + TimerWait(s.pauseOnComplete)
    ensures !s.naturalVariation && |text| > 0 && WholeDelay(s.startDelay) && WholeDelay(s.typeSpeed)
            && WholeDelay(s.pauseOnComplete) ==>
              elapsed as real == s.startDelay + (|text| - 1) as real * s.typeSpeed + s.pauseOnComplete
    ensures s.naturalVariation && |text| > 0 && s.typeSpeed <= MaxTypeSpeed ==>
              elapsed >= TimerWait(s.startDelay) + (|text| - 1) * 30 + TimerWait(s.pauseOnComplete)
    ensures s.naturalVariation && |text| > 0 && s.typeSpeed <= MaxTypeSpeed ==>
              elapsed as real <= (TimerWait(s.startDelay) + TimerWait(s.pauseOnComplete)) as real
                                 + (|text| - 1) as real * Max(MinimumDelay, s.typeSpeed * 1.3)
    ensures |text| == 0 ==> elapsed == TimerWait(s.pauseOnComplete)
  {
    st, elapsed := TypeKeystrokes(s, text, samples);
    st := Complete(text, st);
    TypingTotal(s, |text|, elapsed);
    elapsed := elapsed + TimerWait(s.pauseOnComplete);
  }

  /** Fires every keystroke timer of the text in turn, from the initial
      state, and returns the fully revealed (not yet completed) state and
      the milliseconds the keystrokes took. */
  method TypeKeystrokes(s: Settings, text: string, samples: seq<real>) returns (st: Typing, elapsed: nat)
    requires |text| <= |samples|
    requires forall i :: 0 <= i < |samples| ==> 0.0 <= samples[i] < 1.0
    ensures Valid(text, st) && st.currentIndex == |text|
    ensures !st.isComplete && st.showCursor
    ensures KeystrokesTook(s, |text|, elapsed)
  {
    st := Initial;
    elapsed := 0;
    while st.currentIndex < |text|
      invariant Valid(text, st)
      invariant !st.isComplete && st.showCursor
      invariant KeystrokesTook(s, st.currentIndex, elapsed)
      decreases |text| - st.currentIndex
    {
      var w := TimerWait(TickDelay(s, st, samples[st.currentIndex]));
      NextKeystroke(s, st, samples[st.currentIndex], elapsed);
      elapsed := elapsed + w;
      st := Tick(text, st);
    }
  }

  /** The keystrokes' account plus the completion hold's wait, in closed
      form: exact without variation, and the sum of the settings themselves
      when they are whole milliseconds; bounded on both sides with it. */
  lemma TypingTotal(s: Settings, n: nat, keys: nat)
    requires KeystrokesTook(s, n, keys)
    ensures var total := keys + TimerWait(s.pauseOnComplete);
            !s.naturalVariation && n > 0 ==>
              total == TimerWait(s.startDelay) + (n - 1) * TimerWait(s.typeSpeed)
                       + TimerWait(s.pauseOnComplete)
    ensures var total := keys + TimerWait(s.pauseOnComplete);
            !s.naturalVariation && n > 0 && WholeDelay(s.startDelay) && WholeDelay(s.typeSpeed)
            && WholeDelay(s.pauseOnComplete) ==>
              total as real == s.startDelay + (n - 1) as real * s.typeSpeed + s.pauseOnComplete
    ensures var total := keys + TimerWait(s.pauseOnComplete);
            s.naturalVariation && n > 0 && s.typeSpeed <= MaxTypeSpeed ==>
              total >= TimerWait(s.startDelay) + (n - 1) * 30 + TimerWait(s.pauseOnComplete)
    ensures var total := keys + TimerWait(s.pauseOnComplete);
            s.naturalVariation && n > 0 && s.typeSpeed <= MaxTypeSpeed ==>
              total as real <= (TimerWait(s.startDelay) + TimerWait(s.pauseOnComplete)) as real
                               + (n - 1) as real * Max(MinimumDelay, s.typeSpeed * 1.3)
    ensures n == 0 ==> keys + TimerWait(s.pauseOnComplete) == TimerWait(s.pauseOnComplete)
  {
    if !s.naturalVariation && n > 0 && WholeDelay(s.startDelay) && WholeDelay(s.typeSpeed) {
      var t := TimerWait(s.typeSpeed);
      assert t as real == s.typeSpeed;
      assert ((n - 1) * t) as real == (n - 1) as real * t as real;
    }
  }
}

=== FILE: decimal.dfy ===
/** Decimal rendering of natural numbers, as a template literal renders a
    positive JavaScript counter (`doodle-${idCounter}`), and its inverse. */
module Decimal {

  predicate IsDigit(c: char) {
    '0' <= c <= '9'
  }

  predicate AllDigits(s: string) {
    forall i :: 0 <= i < |s| ==> IsDigit(s[i])
  }

  function DigitChar(d: nat): (c: char)
    requires d < 10
    ensures IsDigit(c)
    ensures c as int - '0' as int == d
  {
    ('0' as int + d) as char
  }

  function DigitValue(c: char): (d: nat)
    requires IsDigit(c)
    ensures d < 10
    ensures DigitChar(d) == c
  {
    c as int - '0' as int
  }

  /** The shortest decimal numeral of `n`: only digits, never a leading zero. */
  function ShowNat(n: nat): (r: string)
    ensures 1 <= |r|
    ensures AllDigits(r)
    ensures 0 < n ==> r[0] != '0'
    decreases n
  {
    if n < 10 then [DigitChar(n)] else ShowNat(n / 10) + [DigitChar(n % 10)]
  }

  /** The value of a string of decimal digits (0 for the empty string). */
  function ReadNat(s: string): nat
    requires AllDigits(s)
    decreases |s|
  {
    if |s| == 0 then 0 else 10 * ReadNat(s[..|s| - 1]) + DigitValue(s[|s| - 1])
  }

  /** Reading back a rendered numeral gives the number. */
  lemma {:induction false} ReadShowNat(n: nat)
    ensures ReadNat(ShowNat(n)) == n
    decreases n
  {
    if 10 <= n {
      var s := ShowNat(n);
      assert s[..|s| - 1] == ShowNat(n / 10);
      ReadShowNat(n / 10);
    }
  }

  /** Distinct numbers are rendered as distinct numerals. */
  lemma ShowNatInjective(a: nat, b: nat)
    ensures ShowNat(a) == ShowNat(b) ==> a == b
  {
    ReadShowNat(a);
    ReadShowNat(b);
  }
}

=== FILE: doodle_reactor.dfy ===
/** Positions and proximity reaction of the annotated doodles: the map from
    element id to bounding-box centre, and the per-move active flags. */
module DoodleReactor {

  /** A bounding box as the browser reports it. */
  datatype Rect = Rect(left: real, top: real, width: real, height: real)

  /** A rendered element carrying the doodle class: its id and its box. */
  datatype Element = Element(id: string, rect: Rect)

  datatype Point = Point(x: real, y: real)

  const ProximityThreshold: real := 100.0

  /** Centre of a box: equally far from its opposite edges. */
  function Centre(r: Rect): (p: Point)
    ensures p.x - r.left == (r.left + r.width) - p.x
    ensures p.y - r.top == (r.top + r.height) - p.y
  {
    Point(r.left + r.width / 2.0, r.top + r.height / 2.0)
  }

  /** Ids of a list of elements. */
  function IdsOf(doodles: seq<Element>): set<string> {
    set e | e in doodles :: e.id
  }

  /** True when no later element in the list has the same id as element k. */
  predicate LastWithId(doodles: seq<Element>, k: int)
    requires 0 <= k < |doodles|
  {
    forall j :: k < j < |doodles| ==> doodles[j].id != doodles[k].id
  }

  /** Rebuilds the position map from the current elements, in document
      order. The previous map is cleared first, so its entries never
      survive: the keys are exactly the current ids, and each id maps to the
      centre of the last element carrying it. */
  method CalculatePositions(previous: map<string, Point>, doodles: seq<Element>)
    returns (positions: map<string, Point>)
    ensures positions.Keys == IdsOf(doodles)
    ensures forall k :: 0 <= k < |doodles| && LastWithId(doodles, k) ==>
              positions[doodles[k].id] == Centre(doodles[k].rect)
  {
    positions := map[];
    var i := 0;
    while i < |doodles|
      invariant 0 <= i <= |doodles|
      invariant positions.Keys == IdsOf(doodles[..i])
      invariant forall k :: 0 <= k < i && (forall j :: k < j < i ==> doodles[j].id != doodles[k].id) ==>
                  positions[doodles[k].id] == Centre(doodles[k].rect)
    {
      assert doodles[..i + 1] == doodles[..i] + [doodles[i]];
      positions := positions[doodles[i].id := Centre(doodles[i].rect)];
      i := i + 1;
    }
    assert doodles[..i] == doodles;
  }

  /** Pointer proximity, on squared distance: strictly closer than the
      threshold. */
  predicate Near(pointer: Point, p: Point) {
    var dx := pointer.x - p.x;
    var dy := pointer.y - p.y;
    dx * dx + dy * dy < ProximityThreshold * ProximityThreshold
  }

  /** The squared comparison agrees with comparing the Euclidean distance
      itself, for whichever non-negative d squares to the squared distance. */
  lemma NearIsDistanceBelowThreshold(pointer: Point, p: Point, d: real)
    requires 0.0 <= d
    requires d * d == (pointer.x - p.x) * (pointer.x - p.x) + (pointer.y - p.y) * (pointer.y - p.y)
    ensures Near(pointer, p) <==> d < ProximityThreshold
  {
    if d < ProximityThreshold {
      assert d * d <= d * ProximityThreshold < ProximityThreshold * ProximityThreshold;
    } else {
      assert d * d >= d * ProximityThreshold >= ProximityThreshold * ProximityThreshold;
    }
  }

  /** One pointer move. Every registered doodle gets its flag set, active
      iff it is near the pointer; while suppressed, every registered doodle
      is made inactive instead. Flags of elements not in the map are not
      touched. */
  function HandleMouseMove(suppressed: bool, pointer: Point, positions: map<string, Point>,
                           active: map<string, bool>): (r: map<string, bool>)
    ensures r.Keys == active.Keys + positions.Keys
    ensures forall id :: id in positions ==> (r[id] <==> !suppressed && Near(pointer, positions[id]))
    ensures forall id :: id in active && id !in positions ==> r[id] == active[id]
  {
    map id | id in active.Keys + positions.Keys ::
      if id in positions then !suppressed && Near(pointer, positions[id]) else active[id]
  }

  /** The reaction is self-correcting: repeating a move changes nothing, and
      the flags of registered doodles do not depend on their previous
      values. */
  lemma MouseMoveIdempotent(suppressed: bool, pointer: Point, positions: map<string, Point>,
                            active: map<string, bool>, other: map<string, bool>)
    ensures var r := HandleMouseMove(suppressed, pointer, positions, active);
            HandleMouseMove(suppressed, pointer, positions, r) == r
    ensures forall id :: id in positions ==>
              HandleMouseMove(suppressed, pointer, positions, active)[id]
              == HandleMouseMove(suppressed, pointer, positions, other)[id]
  {
    var r := HandleMouseMove(suppressed, pointer, positions, active);
    var r2 := HandleMouseMove(suppressed, pointer, positions, r);
    assert r2.Keys == r.Keys;
  }

  /** Pointer (10,10) with centres (0,0), (50,50) and (500,500): the first
      two doodles are active, the third is not. Distances 99.9 and 100.1 lie
      either side of the threshold. */
  lemma ProximityExamples()
    ensures var positions := map["doodle-1" := Point(0.0, 0.0), "doodle-2" := Point(50.0, 50.0),
                                 "doodle-3" := Point(500.0, 500.0)];
            var r := HandleMouseMove(false, Point(10.0, 10.0), positions, map[]);
            r["doodle-1"] && r["doodle-2"] && !r["doodle-3"]
    ensures Near(Point(0.0, 0.0), Point(99.9, 0.0)) && !Near(Point(0.0, 0.0), Point(100.1, 0.0))
  {
  }
}

=== FILE: hero_typing.dfy ===
/** The simple typewriter of the hero section, which schedules one timeout
    per character up front, and the toggle behind the explore button. */
module HeroTyping {
  import opened Timers

  /** A scheduled timeout: its requested delay and the character it appends. */
  datatype Timeout = Timeout(delay: real, ch: char)

  /** The typed text and the timeouts still pending, in creation order. */
  datatype Typist = Typist(currentText: string, pending: seq<Timeout>)

  /** One timeout per character; character i is due after d * (i + 1). */
  function Schedule(text: string, d: real): (ts: seq<Timeout>)
    ensures |ts| == |text|
    ensures forall i :: 0 <= i < |ts| ==> ts[i].ch == text[i] && ts[i].delay == d * (i + 1) as real
  {
    seq(|text|, i requires 0 <= i < |text| => Timeout(d * (i + 1) as real, text[i]))
  }

  /** While every request stays within the 32-bit range (|d * n| < 2^31 ms
      for n characters), the timeouts fall due in creation order, and ties
      fire in creation order, so firing them head first is the order the
      timer queue uses. With a positive interval the requests are strictly
      apart. */
  lemma ScheduleInOrder(text: string, d: real)
    ensures var ts := Schedule(text, d);
            -(TwoTo31 as real) < d * |text| as real < TwoTo31 as real ==>
              forall i, j :: 0 <= i < j < |ts| ==> TimerWait(ts[i].delay) <= TimerWait(ts[j].delay)
    ensures var ts := Schedule(text, d);
            0.0 < d ==> forall i, j :: 0 <= i < j < |ts| ==> ts[i].delay < ts[j].delay
  {
    forall i, j | 0 <= i < j < |text|
      ensures -(TwoTo31 as real) < d * |text| as real < TwoTo31 as real ==>
                TimerWait(Schedule(text, d)[i].delay) <= TimerWait(Schedule(text, d)[j].delay)
      ensures 0.0 < d ==> Schedule(text, d)[i].delay < Schedule(text, d)[j].delay
    {
      ScheduledPair(text, d, i, j);
    }
  }

  /** Characters i < j of one schedule, as a pair: their requests d * (i + 1)
      and d * (j + 1) are strictly apart for a positive interval, and wait
      in order while the last request d * n stays within the 32-bit range. */
  lemma ScheduledPair(text: string, d: real, i: nat, j: nat)
    requires i < j < |text|
    ensures -(TwoTo31 as real) < d * |text| as real < TwoTo31 as real ==>
              TimerWait(Schedule(text, d)[i].delay) <= TimerWait(Schedule(text, d)[j].delay)
    ensures 0.0 < d ==> Schedule(text, d)[i].delay < Schedule(text, d)[j].delay
  {
    var ts := Schedule(text, d);
    var x, y, z := ts[i].delay, ts[j].delay, d * |text| as real;
    ScaledOrder(d, (i + 1) as real, (j + 1) as real, x, y);
    ScaledOrder(d, (j + 1) as real, |text| as real, y, z);
    WaitsOfOrderedRequests(x, y, z, 0.0 < d);
  }

  /** Two requests x and y, both between zero and a bound z inside the
      32-bit range, wait in order: ascending ones (rising) by monotonicity,
      non-positive ones by both waiting zero. */
  lemma WaitsOfOrderedRequests(x: real, y: real, z: real, rising: bool)
    requires rising ==> 0.0 < x < y <= z
    requires !rising ==> z <= y <= x <= 0.0
    ensures -(TwoTo31 as real) < z < TwoTo31 as real ==> TimerWait(x) <= TimerWait(y)
  {
    if -(TwoTo31 as real) < z < TwoTo31 as real {
      if rising {
        TimerWaitMonotone(x, y);
      }
    }
  }

  /** Scaling two positive factors a <= b by d (da = d * a, db = d * b)
      keeps their order when d is positive and reverses it otherwise; both
      products are non-positive when d is. */
  lemma ScaledOrder(d: real, a: real, b: real, da: real, db: real)
    requires 0.0 < a <= b
    requires da == d * a && db == d * b
    ensures 0.0 < d && a < b ==> da < db
    ensures 0.0 < d ==> 0.0 < da <= db
    ensures d <= 0.0 ==> db <= da <= 0.0
  {
    assert db - da == d * (b - a);
    if 0.0 < d {
      assert 0.0 <= d * (b - a);
      assert 0.0 < d * a;
    } else {
      assert (-d) * (b - a) >= 0.0;
      assert -(d * a) == (-d) * a;
    }
  }

  /** An interval so long that later requests pass 2^31 ms breaks the order:
      with 5e8 ms per character, the fifth character of "Samuel" waits zero
      while the first waits 5e8 ms. */
  lemma HugeIntervalReorders()
    ensures var ts := Schedule("Samuel", 500000000.0);
            TimerWait(ts[4].delay) == 0 && TimerWait(ts[0].delay) == 500000000
  {
    var ts := Schedule("Samuel", 500000000.0);
    assert ts[4].delay == 2500000000.0;
    LongRequestWraps();
  }

  /** Starting (on mount or after a change of text or interval) empties the
      text and schedules every character. */
  function Start(text: string, d: real): (st: Typist)
    ensures st.currentText == ""
    ensures st.pending == Schedule(text, d)
  {
    Typist("", Schedule(text, d))
  }

  /** The earliest pending timeout fires and appends its character; with
      nothing pending nothing happens. */
  function Fire(st: Typist): (r: Typist)
    ensures |st.pending| == 0 ==> r == st
    ensures |st.pending| > 0 ==> r.currentText == st.currentText + [st.pending[0].ch] && r.pending == st.pending[1..]
  {
    if |st.pending| == 0 then st
    else Typist(st.currentText + [st.pending[0].ch], st.pending[1..])
  }

  function FireN(st: Typist, n: nat): Typist
    decreases n
  {
    if n == 0 then st else FireN(Fire(st), n - 1)
  }

  /** Cleanup cancels every pending timeout; the text stays as it is. */
  function Cancel(st: Typist): (r: Typist)
    ensures r.pending == [] && r.currentText == st.currentText
  {
    Typist(st.currentText, [])
  }

  /** The characters the timeouts append, in order. */
  function Chars(ts: seq<Timeout>): string {
    seq(|ts|, i requires 0 <= i < |ts| => ts[i].ch)
  }

  /** Firing k timeouts appends their characters in order and leaves the
      rest pending. */
  lemma {:induction false} FireNAppends(c: string, ts: seq<Timeout>, k: nat)
    requires k <= |ts|
    ensures FireN(Typist(c, ts), k) == Typist(c + Chars(ts[..k]), ts[k..])
    decreases k
  {
    if k > 0 {
      var st := Fire(Typist(c, ts));
      assert st == Typist(c + [ts[0].ch], ts[1..]);
      FireNAppends(c + [ts[0].ch], ts[1..], k - 1);
      assert ts[1..][..k - 1] == ts[..k][1..];
      assert ts[1..][k - 1..] == ts[k..];
      assert [ts[0].ch] + Chars(ts[..k][1..]) == Chars(ts[..k]);
    } else {
      assert ts[..0] == [];
      assert c + Chars([]) == c;
    }
  }

  /** After the first k timeouts have fired the text is the length-k prefix
      of the target; after all of them it is the whole target. */
  lemma TypedPrefix(text: string, d: real, k: nat)
    requires k <= |text|
    ensures FireN(Start(text, d), k).currentText == text[..k]
    ensures FireN(Start(text, d), |text|).currentText == text
  {
    var ts := Schedule(text, d);
    FireNAppends("", ts, k);
    assert Chars(ts[..k]) == text[..k];
    FireNAppends("", ts, |text|);
    assert Chars(ts[..|text|]) == text;
  }

  /** Once cleanup has run, no timeout changes the text any more. */
  lemma {:induction false} NothingAfterCancel(st: Typist, n: nat)
    ensures FireN(Cancel(st), n) == Cancel(st)
    decreases n
  {
    if n > 0 {
      NothingAfterCancel(st, n - 1);
    }
  }

  /** The explore button flips whether the details are shown. */
  function ClickExplore(showPortfolio: bool): (r: bool)
    ensures r != showPortfolio
  {
    !showPortfolio
  }

  /** Two clicks restore the original state. */
  lemma ClickTwice(showPortfolio: bool)
    ensures ClickExplore(ClickExplore(showPortfolio)) == showPortfolio
  {
  }

  /** The button reads "Hide Details" exactly while the details are shown,
      and "Explore" otherwise. */
  function ButtonLabel(showPortfolio: bool): (caption: string)
    ensures caption == "Hide Details" <==> showPortfolio
    ensures caption == "Explore" <==> !showPortfolio
  {
    if showPortfolio then "Hide Details" else "Explore"
  }
}

=== FILE: svg_annotator.dfy ===
/** The markup transform of the doodle background: the first `<svg` gets a
    fit directive, then every match of `<(path|g|circle|rect|ellipse)` gets a
    class marker and a 1-based id `doodle-N`, counted left to right. */
module SvgAnnotator {
  import opened Wrappers
  import opened Decimal

  const SvgOpen: string := "<svg"
  const FitAttribute: string := " preserveAspectRatio=\"xMidYMid slice\""
  /** The alternatives of the shape pattern, in the pattern's order. */
  const ShapeTags: seq<string> := ["<path", "<g", "<circle", "<rect", "<ellipse"]
  /** Everything inserted after a shape tag up to the counter's digits. */
  const MarkerHead: string := " class=\"interactive-doodle\" id=\"doodle-"
  const Quote: char := '"'

  /** The element id given to the n-th matched shape. */
  function DoodleId(n: nat): string {
    "doodle-" + ShowNat(n)
  }

  /** The text inserted after the n-th matched shape tag. */
  function Marker(n: nat): string {
    MarkerHead + ShowNat(n) + [Quote]
  }

  predicate StartsWith(s: string, p: string) {
    |p| <= |s| && s[..|p|] == p
  }

  predicate OccursAt(s: string, p: string, i: nat) {
    i + |p| <= |s| && s[i..i + |p|] == p
  }

  // ---------------------------------------------------------------------
  // Shape tags

  /** Shape of every alternative: an opening `<` followed by at least one
      letter, and no further `<`. */
  lemma TagShape(t: string)
    requires t in ShapeTags
    ensures 2 <= |t| <= 8
    ensures t[0] == '<'
    ensures forall j :: 1 <= j < |t| ==> t[j] != '<'
    ensures t[1] != 's'
  {
  }

  /** The shape alternative the pattern matches at the start of `s`, tried in
      the pattern's order. Case-sensitive and a prefix match, so `<g` also
      matches `<glyph`. */
  function MatchTag(s: string): (r: Option<string>)
    ensures r.Some? ==> r.value in ShapeTags && StartsWith(s, r.value)
    ensures r.Some? ==> 2 <= |r.value| <= |s| && s[0] == '<'
    ensures r.None? ==> forall t :: t in ShapeTags ==> !StartsWith(s, t)
  {
    if StartsWith(s, "<path") then Some("<path")
    else if StartsWith(s, "<g") then Some("<g")
    else if StartsWith(s, "<circle") then Some("<circle")
    else if StartsWith(s, "<rect") then Some("<rect")
    else if StartsWith(s, "<ellipse") then Some("<ellipse")
    else None
  }

  /** A matched tag is recognised again in front of any continuation: no two
      alternatives share their first letter. */
  lemma MatchTagOfTag(t: string, x: string)
    requires t in ShapeTags
    ensures MatchTag(t + x) == Some(t)
  {
    var s := t + x;
    assert s[..|t|] == t;
    var r := MatchTag(s);
    TagShape(r.value);
    TagShape(t);
    assert r.value[1] == s[1] == t[1];
  }

  /** A `<` at some position k >= 1 stops every alternative: whether a tag
      matches depends only on the characters up to k. */
  lemma LtBlocks(v: string, w: string, k: nat)
    requires 1 <= k < |v| && k < |w|
    requires v[..k + 1] == w[..k + 1]
    requires v[k] == '<'
    ensures MatchTag(v) == MatchTag(w)
  {
    forall t | t in ShapeTags
      ensures StartsWith(v, t) <==> StartsWith(w, t)
    {
      TagShape(t);
      if |t| <= k + 1 {
        assert v[..|t|] == v[..k + 1][..|t|];
        assert w[..|t|] == w[..k + 1][..|t|];
      } else {
        assert w[k] == w[..k + 1][k] == v[..k + 1][k] == '<';
        if |t| <= |v| {
          assert v[..|t|][k] != t[k];
        }
        if |t| <= |w| {
          assert w[..|t|][k] != t[k];
        }
      }
    }
  }

  // ---------------------------------------------------------------------
  // Counting pattern occurrences (independent reference)

  /** Number of positions of `s` at which a shape alternative matches. */
  function ShapeCount(s: string): nat
    decreases |s|
  {
    if |s| == 0 then 0 else (if MatchTag(s).Some? then 1 else 0) + ShapeCount(s[1..])
  }

  /** No match starts inside a stretch of text without `<`. */
  lemma {:induction false} CountSkipsNoLt(s: string, n: nat)
    requires n <= |s|
    requires forall j :: 0 <= j < n ==> s[j] != '<'
    ensures ShapeCount(s) == ShapeCount(s[n..])
    decreases n
  {
    if n > 0 {
      assert MatchTag(s).None?;
      assert s[1..][n - 1..] == s[n..];
      CountSkipsNoLt(s[1..], n - 1);
    }
  }

  /** A matched tag accounts for exactly one occurrence, and no occurrence
      starts inside it. */
  lemma CountAfterTag(s: string, t: string)
    requires MatchTag(s) == Some(t)
    ensures ShapeCount(s) == 1 + ShapeCount(s[|t|..])
  {
    TagShape(t);
    assert forall j :: 0 <= j < |t| - 1 ==> s[1..][j] == t[j + 1];
    CountSkipsNoLt(s[1..], |t| - 1);
    assert s[1..][|t| - 1..] == s[|t|..];
  }

  // ---------------------------------------------------------------------
  // The fit directive on the root element

  /** First position at or after k where `p` occurs. */
  function FindFrom(s: string, p: string, k: nat): (r: Option<nat>)
    ensures r.Some? ==> k <= r.value && OccursAt(s, p, r.value)
    ensures r.Some? ==> forall j :: k <= j < r.value ==> !OccursAt(s, p, j)
    ensures r.None? ==> forall j :: k <= j ==> !OccursAt(s, p, j)
    decreases |s| - k
  {
    if |s| < k + |p| then None
    else if s[k..k + |p|] == p then Some(k)
    else FindFrom(s, p, k + 1)
  }

  /** Any first occurrence at or after k is the one found. */
  lemma {:induction false} FindFromFirst(s: string, p: string, k: nat, i: nat)
    requires k <= i && OccursAt(s, p, i)
    requires forall j :: k <= j < i ==> !OccursAt(s, p, j)
    ensures FindFrom(s, p, k) == Some(i)
    decreases i - k
  {
    if k < i {
      assert !OccursAt(s, p, k);
      FindFromFirst(s, p, k + 1, i);
    }
  }

  /** Inserts the fit directive after the first `<svg` only; a document
      without `<svg` is returned as it is. */
  function FitRoot(s: string): (r: string)
    ensures FindFrom(s, SvgOpen, 0).None? ==> r == s
    ensures FindFrom(s, SvgOpen, 0).Some? ==> |r| == |s| + |FitAttribute|
  {
    match FindFrom(s, SvgOpen, 0)
    case None => s
    case Some(i) => s[..i + |SvgOpen|] + FitAttribute + s[i + |SvgOpen|..]
  }

  /** Removes the fit directive behind the first `<svg`, if it is there. */
  function UnfitRoot(r: string): string {
    match FindFrom(r, SvgOpen, 0)
    case None => r
    case Some(i) =>
      if OccursAt(r, FitAttribute, i + |SvgOpen|)
      then r[..i + |SvgOpen|] + r[i + |SvgOpen| + |FitAttribute|..]
      else r
  }

  /** Only the first `<svg` gains the directive: it stays the first `<svg`
      of the result, the directive follows it, and the text before and
      after the insertion point is unchanged. */
  lemma FitRootFirstOnly(s: string)
    requires FindFrom(s, SvgOpen, 0).Some?
    ensures var i := FindFrom(s, SvgOpen, 0).value;
            var r := FitRoot(s);
            && FindFrom(r, SvgOpen, 0) == Some(i)
            && OccursAt(r, FitAttribute, i + |SvgOpen|)
            && r[..i + |SvgOpen|] == s[..i + |SvgOpen|]
            && r[i + |SvgOpen| + |FitAttribute|..] == s[i + |SvgOpen|..]
  {
    InsertBehindFirstSvg(s, FitAttribute, FindFrom(s, SvgOpen, 0).value);
  }

  /** Inserting any text q right behind the first `<svg` keeps that `<svg`
      first, and leaves the text on both sides of q as it was. */
  lemma InsertBehindFirstSvg(s: string, q: string, i: nat)
    requires FindFrom(s, SvgOpen, 0) == Some(i)
    ensures var n := i + |SvgOpen|;
            var r := s[..n] + q + s[n..];
            && FindFrom(r, SvgOpen, 0) == Some(i)
            && OccursAt(r, q, n)
            && r[..n] == s[..n]
            && r[n + |q|..] == s[n..]
            && r[..n] + r[n + |q|..] == s
  {
    var n := i + |SvgOpen|;
    var r := s[..n] + q + s[n..];
    assert r[..n] == s[..n];
    forall j | 0 <= j <= i
      ensures OccursAt(r, SvgOpen, j) <==> OccursAt(s, SvgOpen, j)
    {
      assert r[j..j + |SvgOpen|] == r[..n][j..j + |SvgOpen|];
      assert s[j..j + |SvgOpen|] == s[..n][j..j + |SvgOpen|];
    }
    FindFromFirst(r, SvgOpen, 0, i);
    assert r[n..n + |q|] == q;
    assert r[n + |q|..] == s[n..];
    assert s == s[..n] + s[n..];
  }

  /** Removing the directive again recovers the document. */
  lemma FitRootRoundTrip(s: string)
    ensures UnfitRoot(FitRoot(s)) == s
  {
    if FindFrom(s, SvgOpen, 0).Some? {
      InsertBehindFirstSvg(s, FitAttribute, FindFrom(s, SvgOpen, 0).value);
    }
  }

  /** Counting helper: a prefix ending in `<svg` contributes the same
      number of occurrences whatever follows it. */
  lemma {:induction false} CountBehindSvg(p: string, x: string, y: string)
    requires 4 <= |p| && p[|p| - 4..] == SvgOpen
    ensures ShapeCount(p + x) - ShapeCount(x) == ShapeCount(p + y) - ShapeCount(y)
    decreases |p|
  {
    if |p| == 4 {
      assert p == SvgOpen;
      forall z: string
        ensures ShapeCount(p + z) == ShapeCount(z)
      {
        var v := p + z;
        assert v[..2] == "<s";
        assert MatchTag(v).None? by {
          if MatchTag(v).Some? {
            TagShape(MatchTag(v).value);
          }
        }
        assert ShapeCount(v) == ShapeCount(v[1..]);
        assert forall j :: 0 <= j < 3 ==> v[1..][j] != '<';
        CountSkipsNoLt(v[1..], 3);
        assert v[1..][3..] == z;
      }
    } else {
      var k := |p| - 4;
      var vx, vy := p + x, p + y;
      assert vx[..k + 1] == p[..k + 1] == vy[..k + 1];
      LtBlocks(vx, vy, k);
      assert vx[1..] == p[1..] + x;
      assert vy[1..] == p[1..] + y;
      assert p[1..][|p[1..]| - 4..] == p[|p| - 4..];
      CountBehindSvg(p[1..], x, y);
    }
  }

  /** Text without `<` inserted behind a `<svg` changes no count. */
  lemma CountInsertBehindSvg(a: string, q: string, b: string)
    requires 4 <= |a| && a[|a| - 4..] == SvgOpen
    requires forall j :: 0 <= j < |q| ==> q[j] != '<'
    ensures ShapeCount(a + q + b) == ShapeCount(a + b)
  {
    CountBehindSvg(a, q + b, b);
    var v := q + b;
    assert forall j :: 0 <= j < |q| ==> v[j] == q[j];
    CountSkipsNoLt(v, |q|);
    assert v[|q|..] == b;
    assert a + q + b == a + v;
  }

  lemma FitAttributeHasNoLt()
    ensures forall j :: 0 <= j < |FitAttribute| ==> FitAttribute[j] != '<'
  {
    assert '<' !in FitAttribute;
  }

  /** The fit directive adds no shape occurrence and hides none. */
  lemma FitRootKeepsCount(s: string)
    ensures ShapeCount(FitRoot(s)) == ShapeCount(s)
  {
    if FindFrom(s, SvgOpen, 0).Some? {
      var i := FindFrom(s, SvgOpen, 0).value;
      var n := i + |SvgOpen|;
      assert s[..n][n - 4..] == SvgOpen;
      FitAttributeHasNoLt();
      CountInsertBehindSvg(s[..n], FitAttribute, s[n..]);
      assert s == s[..n] + s[n..];
    }
  }

  // ---------------------------------------------------------------------
  // Shape markers

  /** Annotated markup together with the ids assigned, in assignment order. */
  datatype Annotation = Annotation(markup: string, ids: seq<string>)

  /** The global replacement of the shape pattern, continuing a counter that
      has already reached `counter`. After a match the scan resumes behind
      the matched tag; the inserted text is never scanned. */
  function AnnotateFrom(s: string, counter: nat): (a: Annotation)
    ensures |s| <= |a.markup|
    ensures |a.ids| <= |s|
    decreases |s|
  {
    if |s| == 0 then Annotation("", [])
    else match MatchTag(s)
      case Some(t) =>
        var rest := AnnotateFrom(s[|t|..], counter + 1);
        Annotation(t + Marker(counter + 1) + rest.markup, [DoodleId(counter + 1)] + rest.ids)
      case None =>
        var rest := AnnotateFrom(s[1..], counter);
        Annotation([s[0]] + rest.markup, rest.ids)
  }

  /** The ids continue from `counter` and there is one per occurrence of the
      shape pattern. */
  predicate NumberedFrom(s: string, ids: seq<string>, counter: nat) {
    && |ids| == ShapeCount(s)
    && forall i :: 0 <= i < |ids| ==> ids[i] == DoodleId(counter + 1 + i)
  }

  /** Numbering step for a document starting with a shape tag. */
  lemma NumberedTagStep(s: string, counter: nat, t: string)
    requires MatchTag(s) == Some(t)
    requires NumberedFrom(s[|t|..], AnnotateFrom(s[|t|..], counter + 1).ids, counter + 1)
    ensures NumberedFrom(s, AnnotateFrom(s, counter).ids, counter)
  {
    CountAfterTag(s, t);
    var rest := AnnotateFrom(s[|t|..], counter + 1).ids;
    var ids := AnnotateFrom(s, counter).ids;
    assert ids == [DoodleId(counter + 1)] + rest;
    forall i | 1 <= i < |ids|
      ensures ids[i] == DoodleId(counter + 1 + i)
    {
      assert ids[i] == rest[i - 1];
    }
  }

  /** The ids are `doodle-(counter+1)`, `doodle-(counter+2)`, ..., one per
      occurrence of the shape pattern. */
  lemma {:induction false} AnnotateIds(s: string, counter: nat)
    ensures NumberedFrom(s, AnnotateFrom(s, counter).ids, counter)
    decreases |s|
  {
    if |s| > 0 {
      match MatchTag(s)
      case Some(t) =>
        AnnotateIds(s[|t|..], counter + 1);
        NumberedTagStep(s, counter, t);
      case None =>
        AnnotateIds(s[1..], counter);
        assert AnnotateFrom(s, counter).ids == AnnotateFrom(s[1..], counter).ids;
    }
  }

  /** Distinct counters give distinct ids. */
  lemma DoodleIdInjective(a: nat, b: nat)
    ensures DoodleId(a) == DoodleId(b) ==> a == b
  {
    if DoodleId(a) == DoodleId(b) {
      assert DoodleId(a)[7..] == ShowNat(a);
      assert DoodleId(b)[7..] == ShowNat(b);
      ShowNatInjective(a, b);
    }
  }

  /** Whether a tag matches in front of annotated text is decided as it is
      in front of the unannotated text: markers only follow a `<`. */
  lemma {:induction false} MatchTagStable(p: string, u: string, counter: nat)
    requires 1 <= |p|
    ensures MatchTag(p + AnnotateFrom(u, counter).markup) == MatchTag(p + u)
    decreases |u|
  {
    if |u| > 0 {
      match MatchTag(u)
      case Some(t) =>
        StableTagStep(p, u, counter, t);
      case None =>
        var rest := AnnotateFrom(u[1..], counter);
        assert p + AnnotateFrom(u, counter).markup == (p + [u[0]]) + rest.markup;
        assert p + u == (p + [u[0]]) + u[1..];
        MatchTagStable(p + [u[0]], u[1..], counter);
    }
  }

  /** When `u` starts with a tag, its `<` blocks every match begun in `p`. */
  lemma StableTagStep(p: string, u: string, counter: nat, t: string)
    requires 1 <= |p|
    requires MatchTag(u) == Some(t)
    ensures MatchTag(p + AnnotateFrom(u, counter).markup) == MatchTag(p + u)
  {
    var m := AnnotateFrom(u, counter).markup;
    assert m[0] == t[0] == u[0];
    var v, w := p + m, p + u;
    var k := |p|;
    assert v[..k + 1] == p + [u[0]] == w[..k + 1];
    LtBlocks(v, w, k);
  }

  // ---------------------------------------------------------------------
  // Removing the markers

  /** Length of the leading run of digits. */
  function DigitRun(s: string): (n: nat)
    ensures n <= |s|
    ensures AllDigits(s[..n])
    ensures n < |s| ==> !IsDigit(s[n])
    decreases |s|
  {
    if |s| == 0 || !IsDigit(s[0]) then 0
    else
      var n := 1 + DigitRun(s[1..]);
      assert s[..n] == [s[0]] + s[1..][..n - 1];
      n
  }

  lemma {:induction false} DigitRunOf(d: string, rest: string)
    requires AllDigits(d)
    requires 0 < |rest| && !IsDigit(rest[0])
    ensures DigitRun(d + rest) == |d|
    decreases |d|
  {
    if |d| > 0 {
      assert (d + rest)[1..] == d[1..] + rest;
      DigitRunOf(d[1..], rest);
    }
  }

  /** A marker recognised in front of some text: the id it carries and the
      number of characters it occupies. */
  datatype MarkerRead = MarkerRead(id: string, width: nat)

  /** Recognises `class="interactive-doodle" id="doodle-<digits>"` at the
      start of `u`. */
  function ReadMarker(u: string): (r: Option<MarkerRead>)
    ensures r.Some? ==> 1 <= r.value.width <= |u|
  {
    if !StartsWith(u, MarkerHead) then None
    else
      var n := DigitRun(u[|MarkerHead|..]);
      var len := |MarkerHead| + n;
      if 0 < n && len < |u| && u[len] == Quote
      then Some(MarkerRead("doodle-" + u[|MarkerHead|..len], len + 1))
      else None
  }

  /** Every inserted marker is recognised, with the id it was given. */
  lemma ReadMarkerOfMarker(n: nat, rest: string)
    ensures ReadMarker(Marker(n) + rest) == Some(MarkerRead(DoodleId(n), |Marker(n)|))
  {
    var u := Marker(n) + rest;
    var d := ShowNat(n);
    assert u[..|MarkerHead|] == MarkerHead;
    assert u[|MarkerHead|..] == d + ([Quote] + rest);
    DigitRunOf(d, [Quote] + rest);
    assert u[|MarkerHead|..|MarkerHead| + |d|] == d;
  }

  /** Deletes every marker that directly follows a shape tag, and collects
      the ids the markers carry. */
  function Unannotate(r: string): Annotation
    decreases |r|
  {
    if |r| == 0 then Annotation("", [])
    else
      var tag := MatchTag(r);
      var mark := if tag.Some? then ReadMarker(r[|tag.value|..]) else None;
      if tag.Some? && mark.Some? then
        var rest := Unannotate(r[|tag.value| + mark.value.width..]);
        Annotation(tag.value + rest.markup, [mark.value.id] + rest.ids)
      else
        var rest := Unannotate(r[1..]);
        Annotation([r[0]] + rest.markup, rest.ids)
  }

  /** One tag with its marker in front of `rest`: the marker is deleted and
      its id collected. */
  lemma UnannotateMarked(t: string, n: nat, rest: string)
    requires t in ShapeTags
    ensures var u := Unannotate(rest);
            Unannotate(t + Marker(n) + rest) == Annotation(t + u.markup, [DoodleId(n)] + u.ids)
  {
    var r := t + Marker(n) + rest;
    assert r == t + (Marker(n) + rest);
    MatchTagOfTag(t, Marker(n) + rest);
    assert r[|t|..] == Marker(n) + rest;
    ReadMarkerOfMarker(n, rest);
    assert r[|t| + |Marker(n)|..] == rest;
  }

  /** A character with no marked tag in front of it is kept as it is. */
  lemma UnannotatePlain(c: char, rest: string)
    requires MatchTag([c] + rest).None?
    ensures var u := Unannotate(rest);
            Unannotate([c] + rest) == Annotation([c] + u.markup, u.ids)
  {
    assert ([c] + rest)[1..] == rest;
  }

  /** Round-trip step for a document starting with a shape tag. */
  lemma RoundTripTagStep(s: string, counter: nat, t: string)
    requires MatchTag(s) == Some(t)
    requires var rest := AnnotateFrom(s[|t|..], counter + 1);
             Unannotate(rest.markup) == Annotation(s[|t|..], rest.ids)
    ensures Unannotate(AnnotateFrom(s, counter).markup) == Annotation(s, AnnotateFrom(s, counter).ids)
  {
    var rest := AnnotateFrom(s[|t|..], counter + 1);
    UnannotateMarked(t, counter + 1, rest.markup);
    assert s == t + s[|t|..];
  }

  /** Round-trip step for a document not starting with a shape tag. */
  lemma RoundTripPlainStep(s: string, counter: nat)
    requires 0 < |s| && MatchTag(s).None?
    requires var rest := AnnotateFrom(s[1..], counter);
             Unannotate(rest.markup) == Annotation(s[1..], rest.ids)
    ensures Unannotate(AnnotateFrom(s, counter).markup) == Annotation(s, AnnotateFrom(s, counter).ids)
  {
    var rest := AnnotateFrom(s[1..], counter);
    MatchTagStable([s[0]], s[1..], counter);
    assert [s[0]] + s[1..] == s;
    UnannotatePlain(s[0], rest.markup);
  }

  /** The annotation only inserts text: deleting the markers recovers the
      input, and the markers carry exactly the assigned ids. */
  lemma {:induction false} UnannotateRoundTrip(s: string, counter: nat)
    ensures Unannotate(AnnotateFrom(s, counter).markup) == Annotation(s, AnnotateFrom(s, counter).ids)
    decreases |s|
  {
    if |s| > 0 {
      match MatchTag(s)
      case Some(t) =>
        UnannotateRoundTrip(s[|t|..], counter + 1);
        RoundTripTagStep(s, counter, t);
      case None =>
        UnannotateRoundTrip(s[1..], counter);
        RoundTripPlainStep(s, counter);
    }
  }

  // ---------------------------------------------------------------------
  // The whole transform

  /** The annotated markup of a document; the empty document stays empty. */
  function ProcessedSvg(s: string): (r: string)
    ensures r == "" <==> s == ""
    ensures |s| <= |r|
  {
    if |s| == 0 then "" else AnnotateFrom(FitRoot(s), 0).markup
  }

  /** The ids the transform assigns, in document order. */
  function AssignedIds(s: string): seq<string> {
    if |s| == 0 then [] else AnnotateFrom(FitRoot(s), 0).ids
  }

  /** The assigned ids are `doodle-1` ... `doodle-k`, where k is the number
      of occurrences of the shape pattern in the input; they are pairwise
      distinct. */
  lemma AssignedIdsNumbered(s: string)
    ensures |AssignedIds(s)| == ShapeCount(s)
    ensures forall i :: 0 <= i < |AssignedIds(s)| ==> AssignedIds(s)[i] == DoodleId(i + 1)
    ensures forall i, j :: 0 <= i < j < |AssignedIds(s)| ==> AssignedIds(s)[i] != AssignedIds(s)[j]
  {
    if |s| > 0 {
      AnnotateIds(FitRoot(s), 0);
      FitRootKeepsCount(s);
    }
    NumberedDistinct(AssignedIds(s));
  }

  /** Ids numbered from 1 are pairwise distinct. */
  lemma NumberedDistinct(ids: seq<string>)
    requires forall i :: 0 <= i < |ids| ==> ids[i] == DoodleId(i + 1)
    ensures forall i, j :: 0 <= i < j < |ids| ==> ids[i] != ids[j]
  {
    forall i, j | 0 <= i < j < |ids|
      ensures ids[i] != ids[j]
    {
      DoodleIdInjective(i + 1, j + 1);
    }
  }

  /** Deleting the inserted markers from the output of a non-empty document
      leaves the document with the fit directive behind its first `<svg`;
      deleting the directive too recovers the input exactly, and the
      markers carry the assigned ids. */
  lemma ProcessedSvgRoundTrip(s: string)
    ensures s != "" ==> Unannotate(ProcessedSvg(s)).markup == FitRoot(s)
    ensures var a := Unannotate(ProcessedSvg(s));
            UnfitRoot(a.markup) == s && a.ids == AssignedIds(s)
  {
    if |s| > 0 {
      UnannotateRoundTrip(FitRoot(s), 0);
      FitRootRoundTrip(s);
    }
  }
}

=== FILE: timers.dfy ===
/** How long a browser timer waits for a requested delay. The delay is
    converted to a 32-bit `long` (truncated toward zero, then wrapped modulo
    2^32 into the signed range), and a negative result waits zero. */
module Timers {

  const TwoTo31: int := 0x8000_0000
  const TwoTo32: int := 0x1_0000_0000

  /** Truncation toward zero. */
  function Truncate(x: real): (t: int)
    ensures 0.0 <= x ==> t == x.Floor
    ensures 0.0 <= x ==> 0 <= t
    ensures x < 0.0 ==> t <= 0
    ensures x < 0.0 ==> x <= t as real < x + 1.0
    ensures (t as real) <= x < (t + 1) as real || (t - 1) as real < x <= (t as real)
  {
    if 0.0 <= x then x.Floor else -((-x).Floor)
  }

  /** The signed 32-bit value congruent to `t` modulo 2^32. */
  function WrapLong(t: int): (r: int)
    ensures -TwoTo31 <= r < TwoTo31
    ensures (t - r) % TwoTo32 == 0
    ensures -TwoTo31 <= t < TwoTo31 ==> r == t
  {
    var m := t % TwoTo32;
    if m >= TwoTo31 then m - TwoTo32 else m
  }

  /** Milliseconds a timer waits for a requested (finite) delay. */
  function TimerWait(requested: real): (w: nat)
    ensures w < TwoTo31
    ensures 0.0 <= requested < TwoTo31 as real ==> w == requested.Floor
    ensures 0.0 <= requested < TwoTo31 as real ==> w as real <= requested < (w + 1) as real
    ensures WholeDelay(requested) ==> w as real == requested
    ensures -(TwoTo31 as real) < requested <= 0.0 ==> w == 0
  {
    var n := WrapLong(Truncate(requested));
    if n < 0 then 0 else n
  }

  /** A request of a whole number of milliseconds that a timer honours
      exactly: non-negative and below 2^31. */
  predicate WholeDelay(x: real) {
    0.0 <= x < TwoTo31 as real && x == x.Floor as real
  }

  /** Within the non-wrapping range a longer request never waits less. */
  lemma TimerWaitMonotone(a: real, b: real)
    requires -(TwoTo31 as real) < a <= b < TwoTo31 as real
    ensures TimerWait(a) <= TimerWait(b)
  {
    if 0.0 <= a {
      assert a.Floor <= b.Floor;
    }
  }

  /** A request of 2^31 ms or more wraps: 2.5e9 ms waits zero. */
  lemma LongRequestWraps()
    ensures TimerWait(2500000000.0) == 0
    ensures TimerWait(4294967396.0) == 100
  {
    assert Truncate(2500000000.0) == 2500000000;
    assert Truncate(4294967396.0) == 4294967396;
  }
}

=== FILE: wrappers.dfy ===
/** The optional-value type used for absent options and failed searches. */
module Wrappers {

  /** A value that may be absent: an unset configuration option, a search
      that found nothing, a pending timer that does not exist. */
  datatype Option<+T> = None | Some(value: T) {

    /** The carried value, or `default` when there is none. */
    function GetOr(default: T): (r: T)
      ensures Some? ==> r == value
      ensures None? ==> r == default
    {
      match this
      case Some(v) => v
      case None => default
    }
  }
}
